=== FILE: README.md ===
# Student roster client: a Dafny model

This project models the client side of a small student-records application.
Administrators sign in, see the roster of students (`alunos`), search it, and
create, edit or delete students through a dialog. The remote store applies
row-level security and enforces the uniqueness of enrollment codes. The model
covers three parts:

- the student dialog (`StudentForm`): its schema, how it seeds its fields, and its submit handler;
- the management page (`Dashboard`): the administrator gate, the search filter, the status badges and counters, and the load, delete and form-success handlers;
- the sign-in page (`Auth`): the login and sign-up schemas and their submit handlers.

Every call to the remote service is a parameter of the handler that makes it:
`getUser`, `getSession`, the role and roster queries, the writes, sign-in and
sign-up. A handler is given what the service answers and runs to completion as
one atomic step. Its observable behaviour goes into a log of effects, in
order:

- the busy flag being set;
- a request being issued;
- a toast being shown;
- the `onSuccess` callback;
- a navigation.

Each handler that issues requests has an ensures that gives its whole log,
through a specification function where one exists (`CheckAuth` spells its
short log out directly). The input handlers and the dialog and selection
toggles log nothing; their ensures give the new state. The properties are
lemmas about the specification functions.

Modules, one per file:

- `Text` (`text.dfy`): ASCII `toLowerCase`, and `includes` with its characterisation by an occurrence index.
- `Effects` (`effects.dfy`): toasts, the effect log, and replay of the busy flag. It also holds `Gated`, the shape every submit handler shares: the validation toast, or the body between setting and clearing the busy flag.
- `Schema` (`schema.dfy`): the part of the Zod library the forms use. Parsing gathers every issue, field by field in key order and check by check in chain order. The form shows `errors[0]`.
- `StudentForm` (`student_form.dfy`), `Dashboard` (`dashboard.dfy`), `Auth` (`auth.dfy`): the three pages.

Points of the code's behaviour that the model follows:

- The enrollment code (`matricula`) is validated on edit as well as on create. It cannot change while editing because its input is disabled: `FormController.Valid()` keeps the form's code equal to the edited student's, `Edit` cannot change it and `Open` reseeds it. From that equality, `EditSendsOriginalMatricula` proves that every update sends the original code, and `EditedSubmissionSendsOriginalCode` proves it for the dialog itself.
- Status values are the Portuguese `Ativo`, `Trancado` and `Formado`, and the new-student default is `Ativo`.
- In the sign-up schema, the password-confirmation check is an object refinement. It runs after all field checks, so a short username is reported before mismatched passwords.
- The status badge compares without regard to case. The status counters compare exactly.
- The seeding effect of the dialog runs only when its `student` changes. Reopening the creation dialog, even after a successful creation, shows what was typed before (`ReopenedCreateFormKeepsInput`).

## Model

| member | source | states |
|---|---|---|
| Text.LowerIdempotent | src/pages/Dashboard.tsx:192 | lower-casing an already lower-cased string changes nothing |
| Text.IncludesIffOccurs | src/pages/Dashboard.tsx:75-76 | `includes` holds exactly when the needle occurs at some index of the haystack |
| Text.IncludesEmpty | src/pages/Dashboard.tsx:75-76 | the empty search term is included in every string |
| Effects.GatedRejects | src/components/StudentForm.tsx:86-97 | a rejected submission issues no request, never touches the busy flag and shows exactly the validation toast with the first issue's message |
| Effects.GatedRuns | src/components/StudentForm.tsx:99-168 | an accepted submission issues the body's requests and toasts, each request while the busy flag is on, and leaves the flag off |
| StudentForm.FieldIssues | src/components/StudentForm.tsx:24-31 | definition: every issue `studentSchema` collects for one field, check by check in chain order, with the schema's messages and Zod 3's default ones; `ValidateReportsFirstRejectedField` states its relation to `Validate` |
| StudentForm.Issues | src/components/StudentForm.tsx:24-31 | definition: every issue a parse of the form collects, field by field in key order; `ValidateIsFirstIssue` proves that `Validate` reports its first element |
| StudentForm.Validate | src/components/StudentForm.tsx:24-31 | definition: the rule cascade in schema order; `ValidateAcceptsExactly`, `ValidateIsFirstIssue` and `ValidateReportsFirstRejectedField` state its properties |
| StudentForm.ValidateAcceptsExactly | src/components/StudentForm.tsx:24-31 | the schema accepts a form exactly when the name is 3 to 100 characters, the code 1 to 50, the email well-formed and at most 255, the birth date present, the course 3 to 100, and the status one of the three values |
| StudentForm.ValidateIsFirstIssue | src/components/StudentForm.tsx:24-31 | the message reported is the first of all issues, collected field by field in key order and check by check in chain order |
| StudentForm.ValidateReportsFirstRejectedField | src/components/StudentForm.tsx:24-31 | when every earlier field is clean, the first issue of the first failing field is reported |
| StudentForm.ShortNameRejectedFirst | src/components/StudentForm.tsx:25 | every form whose name has fewer than 3 characters is rejected with the name-length message, whatever its other five fields hold and whatever the email check says |
| StudentForm.Seed | src/components/StudentForm.tsx:51-81 | definition: a copy of the edited student's six fields, or empty fields with status `Ativo`; `SeedCopiesStudent` and `NewFormRejected` state its properties |
| StudentForm.SeedCopiesStudent | src/components/StudentForm.tsx:61-70 | opening the dialog on a student copies all six of its fields into the form |
| StudentForm.NewFormRejected | src/components/StudentForm.tsx:51-59 | a new form starts with status `Ativo`, and if left blank it is rejected on the name |
| StudentForm.Assign | src/components/StudentForm.tsx:186-250 | definition: the form with one field replaced, as each input's change handler builds it; `FormController.Edit` uses it |
| StudentForm.WriteRequest | src/components/StudentForm.tsx:108-132 | definition: the update keyed by the edited student's id, or the insert stamped with the user's id; `SubmitRequests` and `EditSendsOriginalMatricula` state its properties |
| StudentForm.WriteFailure | src/components/StudentForm.tsx:114-165 | definition: the toast for a failed write; `WriteFailureClassifies` states its properties |
| StudentForm.WriteFailureClassifies | src/components/StudentForm.tsx:114-165 | a row-level-security refusal is reported as missing permission, and this is tested first; on insert a duplicate key is reported as a taken enrollment code; any other error shows the store's message under the save-failed title |
| StudentForm.WriteReport | src/components/StudentForm.tsx:114-159 | definition: the success toast and `onSuccess`, or one failure toast, after the write answered; `SubmitNotifiesOnce` and `SubmitCallsBackOnlyOnSuccess` state its properties, and `FormController.Update`/`Insert` are proved against it |
| StudentForm.AfterUser | src/components/StudentForm.tsx:102-165 | definition: the missing-user error, or the write and its report; `FormController.WriteAndReport` and `Save` are proved against it |
| StudentForm.SubmitBody | src/components/StudentForm.tsx:101-165 | definition: `getUser` followed by `AfterUser`; `SubmitBodyKeepsLoading` states its property |
| StudentForm.SubmitEffects | src/components/StudentForm.tsx:83-169 | definition: the whole log of one submission; `SubmitRequests`, `SubmitNotifiesOnce`, `SubmitCallsBackOnlyOnSuccess`, `SubmitLoadingBracket` and `EditSendsOriginalMatricula` state its properties |
| StudentForm.SubmitBodyKeepsLoading | src/components/StudentForm.tsx:101-165 | the try block and its catch clause never touch the busy flag |
| StudentForm.SubmitRequests | src/components/StudentForm.tsx:86-157 | a rejected form issues nothing; an accepted one asks for the user and then, if there is one, issues exactly one write: an update of the whole form keyed by the edited student's id, or an insert of the form stamped with the user's id |
| StudentForm.SubmitNotifiesOnce | src/components/StudentForm.tsx:86-165 | every submission shows exactly one toast: the validation message, the missing-user error, the failure classification, or the success title |
| StudentForm.SubmitCallsBackOnlyOnSuccess | src/components/StudentForm.tsx:159 | `onSuccess` is called exactly when the form is accepted, a user is present and the write succeeds |
| StudentForm.SubmitLoadingBracket | src/components/StudentForm.tsx:99-168 | every request is issued while the busy flag is on, and the flag is off afterwards on every path |
| StudentForm.EditSendsOriginalMatricula | src/components/StudentForm.tsx:108-112 | while editing, every request is `getUser` or an update keyed by the student's id that carries the original enrollment code |
| StudentForm.FormController.constructor | src/components/StudentForm.tsx:51-81 | the dialog opens idle, seeded from its student |
| StudentForm.FormController.Open | src/components/StudentForm.tsx:61-81 | the dialog takes the target; the form is reseeded from it only when it differs from the previous target, otherwise what was typed stays |
| StudentForm.FormController.Edit | src/components/StudentForm.tsx:186-250 | an input changes its own field only; the enrollment code stays fixed while editing, as its input is disabled |
| StudentForm.FormController.SetLoading | src/components/StudentForm.tsx:99 | sets the busy flag and logs it |
| StudentForm.FormController.Update | src/components/StudentForm.tsx:108-128 | issues the update, then reports a permission refusal or success itself; exactly any other error is rethrown to the catch clause |
| StudentForm.FormController.Insert | src/components/StudentForm.tsx:129-157 | issues the insert, then reports a permission refusal, a duplicate code or success itself; exactly any other error is rethrown to the catch clause |
| StudentForm.FormController.WriteAndReport | src/components/StudentForm.tsx:104-165 | the write and its report, or the missing-user error, as the specification of the rest of the try block gives them |
| StudentForm.FormController.Save | src/components/StudentForm.tsx:99-168 | the busy flag is set, the user is requested, the write is reported, and the flag is cleared in the finally clause |
| StudentForm.FormController.Submit | src/components/StudentForm.tsx:83-169 | the handler's log is exactly the submission specification, and the dialog is left idle |
| StudentForm.ReopenedCreateFormKeepsInput | src/components/StudentForm.tsx:61-81 | a name typed in the creation dialog is still there when the creation dialog is opened again, whatever the submission in between answered |
| StudentForm.EditedSubmissionSendsOriginalCode | src/components/StudentForm.tsx:108-112 | a dialog opened on a student, with any one input changed and then submitted, sends only `getUser` and updates of that student carrying its original enrollment code, whatever the answers |
| Dashboard.Matches | src/pages/Dashboard.tsx:73-77 | definition: the lower-cased term is included in the lower-cased name or code; `MatchesIgnoresTermCase` and `FilterStudents` state its properties |
| Dashboard.MatchesIgnoresTermCase | src/pages/Dashboard.tsx:75-76 | the search gives the same answer for a term and its lower-cased form |
| Dashboard.FilterStudents | src/pages/Dashboard.tsx:72-79 | the filtered roster holds exactly the students whose lower-cased name or code includes the lower-cased term, and it is no longer than the roster |
| Dashboard.FilterIsSubsequence | src/pages/Dashboard.tsx:73-77 | filtering keeps the roster's order |
| Dashboard.FilterKeepsMultiplicities | src/pages/Dashboard.tsx:73-77 | each matching student appears in the filtered list as often as in the roster, and no other student appears; with `FilterIsSubsequence`, the result is exactly the matching subsequence |
| Dashboard.FilterKeepsMatchingRoster | src/pages/Dashboard.tsx:73-77 | a roster whose every student matches passes the filter unchanged |
| Dashboard.FilterIdempotent | src/pages/Dashboard.tsx:73-77 | filtering twice by the same term is filtering once |
| Dashboard.FilterEmptyTermKeepsAll | src/pages/Dashboard.tsx:54 | with the initial empty term the whole roster is shown |
| Dashboard.AnyAdmin | src/pages/Dashboard.tsx:105 | true exactly when some role row is `admin` |
| Dashboard.HasAdminRole | src/pages/Dashboard.tsx:100-106 | administrator exactly when the fetched roles hold an `admin` row; no rows fetched means no access |
| Dashboard.StatusColor | src/pages/Dashboard.tsx:191-202 | definition: the badge classes for a lower-cased status; `StatusColorIgnoresCase` and `FormStatusesHaveBadges` state its properties |
| Dashboard.StatusColorIgnoresCase | src/pages/Dashboard.tsx:191-202 | the badge does not depend on the case of the status |
| Dashboard.FormStatusesHaveBadges | src/pages/Dashboard.tsx:191-202 | every status whose lower-cased form is `ativo`, `trancado` or `formado` gets the success, warning or primary badge respectively, and no status the form admits gets the muted one |
| Dashboard.CountStatus | src/pages/Dashboard.tsx:373-379 | a counter never exceeds the roster's size |
| Dashboard.CountersWithinTotal | src/pages/Dashboard.tsx:368-379 | counters of two different statuses together never exceed the total |
| Dashboard.ActiveAndGraduatedWithinTotal | src/pages/Dashboard.tsx:368-379 | the active and graduated counters together never exceed the total shown |
| Dashboard.LoadEffects | src/pages/Dashboard.tsx:110-135 | definition: the log of one load; `LoadOnlyForAdministrators` states its properties |
| Dashboard.Reloaded | src/pages/Dashboard.tsx:110-135 | definition: the roster after one load; `LoadOnlyForAdministrators` states its properties |
| Dashboard.LoadOnlyForAdministrators | src/pages/Dashboard.tsx:110-135 | a non-administrator never queries the roster; a failed query keeps the last roster and shows exactly one toast |
| Dashboard.DeleteEffects | src/pages/Dashboard.tsx:147-183 | definition: the log of one delete of the selected student; `DeleteReloadsOnlyOnSuccess` states its properties |
| Dashboard.DeleteReloadsOnlyOnSuccess | src/pages/Dashboard.tsx:147-183 | a delete issues one request keyed by the student's id, and the roster is queried again exactly when the delete succeeded; a row-level-security refusal shows the permission message |
| Dashboard.ListController.constructor | src/pages/Dashboard.tsx:51-60 | the page starts with an empty roster and term, checking access, with no dialog open |
| Dashboard.ListController.CurrentView | src/pages/Dashboard.tsx:204-244 | definition: the spinner while access is checked or the roster loads, then the restricted notice or the roster; `NonAdministratorSession` uses it |
| Dashboard.ListController.ApplyFilter | src/pages/Dashboard.tsx:72-79 | the filtered list becomes the roster filtered by the term |
| Dashboard.ListController.CheckAuth | src/pages/Dashboard.tsx:81-108 | with no session the page navigates to `/auth` and stays checking; with one it queries the roles and becomes an administrator exactly when they hold `admin` |
| Dashboard.ListController.LoadStudents | src/pages/Dashboard.tsx:110-135 | the roster becomes the rows returned (none for null) or stays on failure; the filter stays in step; loading ends |
| Dashboard.ListController.SetSearchTerm | src/pages/Dashboard.tsx:72-79 | a new term re-filters the roster |
| Dashboard.ListController.HandleEdit | src/pages/Dashboard.tsx:142-145 | opens the dialog on the student |
| Dashboard.ListController.OpenCreate | src/pages/Dashboard.tsx:288-291 | opens the dialog with no student |
| Dashboard.ListController.RequestDelete | src/pages/Dashboard.tsx:351 | selects the student to delete |
| Dashboard.ListController.DismissDelete | src/pages/Dashboard.tsx:395 | closing the confirmation forgets the selection |
| Dashboard.ListController.HandleDelete | src/pages/Dashboard.tsx:147-183 | does nothing without a selection; otherwise the log is the delete specification, the roster is reloaded only on success, and the selection is always cleared |
| Dashboard.ListController.HandleFormSuccess | src/pages/Dashboard.tsx:185-189 | closes the dialog, forgets the edited student and reloads the roster |
| Dashboard.NonAdministratorSession | src/pages/Dashboard.tsx:204-244 | a session without `admin` ends on the restricted notice, with the session and role queries as the only requests the model logs, and an empty roster |
| Auth.LoginIssues | src/pages/Auth.tsx:13-16 | definition: every issue `loginSchema` collects, email first; `ValidateLogin` reports its first element |
| Auth.ValidateLogin | src/pages/Auth.tsx:13-16 | login is accepted exactly when the email is well-formed and the password has at least 6 characters; an invalid email is reported before a short password |
| Auth.SignupFieldIssues | src/pages/Auth.tsx:18-22 | definition: the field issues of `signupSchema` in key order (email, password, username); `SignupReportsMismatchLast` states the order |
| Auth.SignupIssues | src/pages/Auth.tsx:18-26 | definition: the field issues followed by the refinement's mismatch issue; `SignupAcceptsExactly` and `SignupReportsMismatchLast` state its properties |
| Auth.ValidateSignup | src/pages/Auth.tsx:18-26 | definition: the first issue of the field checks followed by the password comparison; `SignupAcceptsExactly` and `SignupReportsMismatchLast` state its properties |
| Auth.SignupAcceptsExactly | src/pages/Auth.tsx:18-26 | sign-up is accepted exactly when the email is well-formed, the password has at least 6 characters, the username at least 3, and the confirmation equals the password |
| Auth.SignupReportsMismatchLast | src/pages/Auth.tsx:18-26 | the mismatch is reported exactly when every field passes and the passwords differ; otherwise email, password and username are reported in that order |
| Auth.LoginReport | src/pages/Auth.tsx:78-96 | definition: the toast after sign-in answered; `LoginReportClassifies` states its properties |
| Auth.LoginReportClassifies | src/pages/Auth.tsx:78-96 | a failed sign-in mentioning invalid credentials shows "Email ou senha incorretos", any other error its own message; only failures are destructive |
| Auth.SignupReport | src/pages/Auth.tsx:130-150 | definition: the toast after sign-up answered; `SignupReportClassifies` states its properties |
| Auth.SignupReportClassifies | src/pages/Auth.tsx:130-150 | a failed sign-up mentioning an existing registration shows "Este email já está cadastrado", any other error its own message; success invites the user to log in |
| Auth.LoginEffects | src/pages/Auth.tsx:55-99 | definition: the log of one login; `LoginRequests` and `LoginNotifiesOnce` state its properties |
| Auth.SignupEffects | src/pages/Auth.tsx:101-153 | definition: the log of one sign-up; `SignupRequests`, `SignupNotifiesOnce` and `MismatchNeverSignsUp` state its properties |
| Auth.LoginRequests | src/pages/Auth.tsx:55-76 | handleLogin signs in, with the form's own credentials, exactly when the schema accepts the form |
| Auth.LoginNotifiesOnce | src/pages/Auth.tsx:55-99 | handleLogin shows exactly one toast, signs in only while busy, and ends idle |
| Auth.SignupRequests | src/pages/Auth.tsx:101-128 | handleSignup signs up, with the form's email, password and username, exactly when the schema accepts the form |
| Auth.SignupNotifiesOnce | src/pages/Auth.tsx:101-153 | handleSignup shows exactly one toast, signs up only while busy, and ends idle |
| Auth.MismatchNeverSignsUp | src/pages/Auth.tsx:23-26 | mismatched passwords never reach the service and produce one validation toast |
| Auth.SignupAfter | src/pages/Auth.tsx:144-150 | definition: the sign-up form after one submission; `SignupClearsOnlyOnSuccess` states its properties |
| Auth.SignupClearsOnlyOnSuccess | src/pages/Auth.tsx:144-150 | the sign-up form is either kept or cleared; it is cleared exactly when the form is accepted and the sign-up succeeds |
| Auth.AuthController.constructor | src/pages/Auth.tsx:30-37 | the page starts idle with both forms empty |
| Auth.AuthController.EditLogin | src/pages/Auth.tsx:183-194 | a login input changes its own field only |
| Auth.AuthController.EditSignup | src/pages/Auth.tsx:213-246 | a sign-up input changes its own field only |
| Auth.AuthController.HandleLogin | src/pages/Auth.tsx:55-99 | the handler's log is exactly the login specification, and the page is left idle |
| Auth.AuthController.HandleSignup | src/pages/Auth.tsx:101-153 | the handler's log is exactly the sign-up specification, and the form is cleared exactly on success |

## Left out

- The session subscription of the sign-in page (`getSession` and `onAuthStateChange` redirecting to `/dashboard`, and its unsubscription) and the application's routing: these are framework wiring with no logic of their own.
- `handleLogout` on the management page: a sign-out call followed by navigation, with no state of its own.
- The profile query for the username shown in the header (`profiles`, Dashboard.tsx lines 89-97), so the model's log of `checkAuth` omits that request, `toLocaleDateString` for birth dates, and all markup and styling. They affect display only.
- The `disabled={loading}` submit buttons. Each handler runs as one atomic step, so the busy flag is observed only through the effect log, and a second submission during a request cannot be expressed.
- Asynchronous interleaving. In particular, the reload that `handleDelete` starts without awaiting it is modelled as completing before the `finally` clause clears the selection. The effect that reloads when `checkingAccess` or `isAdmin` changes is a separate call the client makes.
- Zod's email regular expression is the parameter `isEmail`. `toLowerCase` is modelled for ASCII letters only. String lengths count characters, not UTF-16 code units.
- The `emailRedirectTo` option of sign-up: it depends on `window.location`.
- Ordering by name, row-level security and uniqueness are decided by the remote store. Their outcomes reach the model only as the error text passed in.
- The max-length and enum messages are Zod 3's default texts, since the schema gives none.
- Rejected calls in the sign-in page. `handleLogin` and `handleSignup` have no `try`/`finally` around `signInWithPassword` and `signUp` (Auth.tsx lines 71-98 and 117-152). The model assumes each call resolves with an error value or none. If the call rejects instead, the source leaves the busy flag on, shows no toast and keeps both submit buttons disabled. The model cannot express that outcome.
- Rejected calls elsewhere. In the student dialog and in `loadStudents` and `handleDelete`, a rejected call is caught and reported with its message, like an error that is not recognised. The model gives these calls only an error value. In `checkAuth`, a rejection would leave the page checking access forever, and the model does not express it.
- StudentForm.FormController.Open: the seeding effect compares the `student` prop by reference, while the model compares the target by value. The two differ for a re-fetched student equal in value to the current target. The source reseeds the form, discarding what was typed; the model keeps it.

=== FILE: auth.dfy ===
/** The sign-in and sign-up page (src/pages/Auth.tsx): the two schemas, the
    two submit handlers and the page state they update. */
module Auth {
  import opened Effects
  import opened Text
  import opened Schema

  /** The login form's state. */
  datatype LoginData = LoginData(email: string, password: string)

  /** The sign-up form's state. */
  datatype SignupData = SignupData(email: string, password: string, confirmPassword: string, username: string)

  const EmptyLogin := LoginData("", "")
  const EmptySignup := SignupData("", "", "", "")

  /** The inputs of the two forms. */
  datatype LoginField = LoginEmail | LoginPassword
  datatype SignupField = SignupUsername | SignupEmail | SignupPassword | SignupConfirmPassword

  /** The authentication requests: `signInWithPassword` and `signUp`, the latter carrying the username as user metadata. */
  datatype Request =
    | SignIn(email: string, password: string)
    | SignUp(email: string, password: string, username: string)

  const InvalidEmail := "Email inválido"
  const ShortPassword := "Senha deve ter no mínimo 6 caracteres"
  const ShortUsername := "Nome de usuário deve ter no mínimo 3 caracteres"
  const PasswordMismatch := "As senhas não coincidem"

  const MinPassword := 6
  const MinUsername := 3

  // ---------------------------------------------------------------- schemas

  /** Every issue of `loginSchema`, email first. */
  function LoginIssues(isEmail: string -> bool, d: LoginData): seq<Issue>
  {
    Check(isEmail(d.email), "email", InvalidEmail) +
    Check(|d.password| >= MinPassword, "password", ShortPassword)
  }

  /** The first issue of `loginSchema.parse`, if the parse fails. */
  function ValidateLogin(isEmail: string -> bool, d: LoginData): (r: Option<Issue>)
    ensures r.None? <==> isEmail(d.email) && |d.password| >= MinPassword
    ensures r.Some? && !isEmail(d.email) ==> r.value == Issue("email", InvalidEmail)
    ensures r.Some? && isEmail(d.email) ==> r.value == Issue("password", ShortPassword)
  {
    FirstIssue(LoginIssues(isEmail, d))
  }

  /** The field issues of `signupSchema`, in the object's key order
      (`confirmPassword` has no check of its own). */
  function SignupFieldIssues(isEmail: string -> bool, d: SignupData): seq<Issue>
  {
    Check(isEmail(d.email), "email", InvalidEmail) +
    Check(|d.password| >= MinPassword, "password", ShortPassword) +
    Check(|d.username| >= MinUsername, "username", ShortUsername)
  }

  /** Every issue of `signupSchema`: the object refinement that compares the
      passwords runs even when a field failed, and its issue comes last. */
  function SignupIssues(isEmail: string -> bool, d: SignupData): seq<Issue>
  {
    SignupFieldIssues(isEmail, d) + Check(d.password == d.confirmPassword, "confirmPassword", PasswordMismatch)
  }

  /** The first issue of `signupSchema.parse`, if the parse fails. */
  function ValidateSignup(isEmail: string -> bool, d: SignupData): Option<Issue>
  {
    FirstIssue(SignupIssues(isEmail, d))
  }

  /** The sign-up schema accepts exactly the forms whose four conditions hold. */
  lemma SignupAcceptsExactly(isEmail: string -> bool, d: SignupData)
    ensures ValidateSignup(isEmail, d).None? <==>
      isEmail(d.email) && |d.password| >= MinPassword && |d.username| >= MinUsername
      && d.password == d.confirmPassword
  {
  }

  /** The mismatch is reported exactly when every field passes and the two passwords differ;
      otherwise a failing field is reported first, in key order. */
  lemma SignupReportsMismatchLast(isEmail: string -> bool, d: SignupData)
    ensures ValidateSignup(isEmail, d) == Some(Issue("confirmPassword", PasswordMismatch)) <==>
      isEmail(d.email) && |d.password| >= MinPassword && |d.username| >= MinUsername
      && d.password != d.confirmPassword
    ensures !isEmail(d.email) ==> ValidateSignup(isEmail, d) == Some(Issue("email", InvalidEmail))
    ensures isEmail(d.email) && |d.password| < MinPassword ==>
      ValidateSignup(isEmail, d) == Some(Issue("password", ShortPassword))
    ensures isEmail(d.email) && |d.password| >= MinPassword && |d.username| < MinUsername ==>
      ValidateSignup(isEmail, d) == Some(Issue("username", ShortUsername))
  {
  }

  // ---------------------------------------------------------------- handlers

  const InvalidCredentials := "Invalid login credentials"
  const AlreadyRegistered := "already registered"
  const LoginFailedTitle := "Erro ao fazer login"
  const WrongCredentials := "Email ou senha incorretos"
  const LoggedInTitle := "Login realizado com sucesso!"
  const SignupFailedTitle := "Erro ao criar conta"
  const EmailTaken := "Este email já está cadastrado"
  const SignedUp := Toast("Conta criada com sucesso!", Some("Você já pode fazer login"), false)

  /** The toast after `signInWithPassword` answered. */
  function LoginReport(signInError: Option<string>): Toast
  {
    match signInError
    case None => Success(LoggedInTitle)
    case Some(m) => Failure(LoginFailedTitle, if Includes(m, InvalidCredentials) then WrongCredentials else m)
  }

  /** A failed sign-in is reported as wrong credentials when the service says
      so, otherwise with the service's own message; success is not destructive. */
  lemma LoginReportClassifies(signInError: Option<string>)
    ensures LoginReport(signInError).destructive <==> signInError.Some?
    ensures signInError.Some? ==> LoginReport(signInError).title == LoginFailedTitle
    ensures signInError.Some? ==>
      LoginReport(signInError).description ==
        Some(if exists i :: OccursAt(signInError.value, InvalidCredentials, i) then WrongCredentials else signInError.value)
  {
    if signInError.Some? {
      IncludesIffOccurs(signInError.value, InvalidCredentials);
    }
  }

  /** The toast after `signUp` answered. */
  function SignupReport(signUpError: Option<string>): Toast
  {
    match signUpError
    case None => SignedUp
    case Some(m) => Failure(SignupFailedTitle, if Includes(m, AlreadyRegistered) then EmailTaken else m)
  }

  /** A failed sign-up names a taken address when the service says so,
      otherwise passes the service's message on; success invites to log in. */
  lemma SignupReportClassifies(signUpError: Option<string>)
    ensures SignupReport(signUpError).destructive <==> signUpError.Some?
    ensures signUpError.None? ==> SignupReport(signUpError).description == Some("Você já pode fazer login")
    ensures signUpError.Some? ==>
      SignupReport(signUpError).description ==
        Some(if exists i :: OccursAt(signUpError.value, AlreadyRegistered, i) then EmailTaken else signUpError.value)
  {
    if signUpError.Some? {
      IncludesIffOccurs(signUpError.value, AlreadyRegistered);
    }
  }

  /** What handleLogin does for a form and the sign-in's answer. */
  function LoginEffects(isEmail: string -> bool, d: LoginData, signInError: Option<string>): seq<Effect<Request>>
  {
    Gated(Rejection(ValidateLogin(isEmail, d)), [Call(SignIn(d.email, d.password)), Show(LoginReport(signInError))])
  }

  /** What handleSignup does for a form and the sign-up's answer. */
  function SignupEffects(isEmail: string -> bool, d: SignupData, signUpError: Option<string>): seq<Effect<Request>>
  {
    Gated(Rejection(ValidateSignup(isEmail, d)),
          [Call(SignUp(d.email, d.password, d.username)), Show(SignupReport(signUpError))])
  }

  /** The requests and toasts of a two-step body: one call, then one toast. */
  lemma CallThenShow(q: Request, t: Toast)
    ensures Requests<Request>([Call(q), Show(t)]) == [q]
    ensures Toasts<Request>([Call(q), Show(t)]) == [t]
    ensures KeepsLoading<Request>([Call(q), Show(t)])
  {
    var es: seq<Effect<Request>> := [Call(q), Show(t)];
    var last := es[1..];
    assert last == [Show(t)] && last[1..] == [];
    assert Toasts(last) == [t] + Toasts<Request>([]);
    assert Requests(es) == [q] + Requests(last);
    assert Toasts(es) == Toasts(last);
  }

  /** handleLogin signs in, with the form's own credentials, exactly when the schema accepts the form. */
  lemma LoginRequests(isEmail: string -> bool, d: LoginData, signInError: Option<string>)
    ensures Requests(LoginEffects(isEmail, d, signInError)) ==
      (if isEmail(d.email) && |d.password| >= MinPassword then [SignIn(d.email, d.password)] else [])
  {
    var body: seq<Effect<Request>> := [Call(SignIn(d.email, d.password)), Show(LoginReport(signInError))];
    CallThenShow(SignIn(d.email, d.password), LoginReport(signInError));
    match ValidateLogin(isEmail, d)
    case None => GatedRuns(body);
    case Some(i) => GatedRejects(i.message, body);
  }

  /** handleLogin raises exactly one toast: the schema's first message when
      the form is rejected, else the sign-in report. It signs in only while the
      busy flag is on, and leaves the flag off. */
  lemma LoginNotifiesOnce(isEmail: string -> bool, d: LoginData, signInError: Option<string>)
    ensures Toasts(LoginEffects(isEmail, d, signInError)) ==
      [match ValidateLogin(isEmail, d)
       case Some(i) => Failure(ValidationTitle, i.message)
       case None => LoginReport(signInError)]
    ensures CallsWhileLoading(false, LoginEffects(isEmail, d, signInError))
    ensures !LoadingAfter(false, LoginEffects(isEmail, d, signInError))
  {
    var body: seq<Effect<Request>> := [Call(SignIn(d.email, d.password)), Show(LoginReport(signInError))];
    CallThenShow(SignIn(d.email, d.password), LoginReport(signInError));
    match ValidateLogin(isEmail, d)
    case None => GatedRuns(body);
    case Some(i) =>
      GatedRejects(i.message, body);
      var es := LoginEffects(isEmail, d, signInError);
      assert es[1..] == [];
  }

  /** handleSignup signs up, with the form's address, password and username,
      exactly when the schema accepts the form. */
  lemma SignupRequests(isEmail: string -> bool, d: SignupData, signUpError: Option<string>)
    ensures Requests(SignupEffects(isEmail, d, signUpError)) ==
      (if isEmail(d.email) && |d.password| >= MinPassword && |d.username| >= MinUsername
          && d.password == d.confirmPassword
       then [SignUp(d.email, d.password, d.username)] else [])
  {
    var body: seq<Effect<Request>> := [Call(SignUp(d.email, d.password, d.username)), Show(SignupReport(signUpError))];
    CallThenShow(SignUp(d.email, d.password, d.username), SignupReport(signUpError));
    SignupAcceptsExactly(isEmail, d);
    match ValidateSignup(isEmail, d)
    case None => GatedRuns(body);
    case Some(i) => GatedRejects(i.message, body);
  }

  /** handleSignup raises exactly one toast, signs up only while the busy flag
      is on, and leaves the flag off. */
  lemma SignupNotifiesOnce(isEmail: string -> bool, d: SignupData, signUpError: Option<string>)
    ensures Toasts(SignupEffects(isEmail, d, signUpError)) ==
      [match ValidateSignup(isEmail, d)
       case Some(i) => Failure(ValidationTitle, i.message)
       case None => SignupReport(signUpError)]
    ensures CallsWhileLoading(false, SignupEffects(isEmail, d, signUpError))
    ensures !LoadingAfter(false, SignupEffects(isEmail, d, signUpError))
  {
    var body: seq<Effect<Request>> := [Call(SignUp(d.email, d.password, d.username)), Show(SignupReport(signUpError))];
    CallThenShow(SignUp(d.email, d.password, d.username), SignupReport(signUpError));
    match ValidateSignup(isEmail, d)
    case None => GatedRuns(body);
    case Some(i) =>
      GatedRejects(i.message, body);
      var es := SignupEffects(isEmail, d, signUpError);
      assert es[1..] == [];
  }

  /** Mismatched passwords never reach the service, whatever else the form holds. */
  lemma MismatchNeverSignsUp(isEmail: string -> bool, d: SignupData, signUpError: Option<string>)
    requires d.password != d.confirmPassword
    ensures Requests(SignupEffects(isEmail, d, signUpError)) == []
    ensures |Toasts(SignupEffects(isEmail, d, signUpError))| == 1
    ensures Toasts(SignupEffects(isEmail, d, signUpError))[0].title == ValidationTitle
  {
    SignupRequests(isEmail, d, signUpError);
    SignupNotifiesOnce(isEmail, d, signUpError);
    SignupAcceptsExactly(isEmail, d);
  }

  /** The sign-up form after handleSignup: cleared only after a successful sign-up. */
  function SignupAfter(isEmail: string -> bool, d: SignupData, signUpError: Option<string>): SignupData
  {
    if ValidateSignup(isEmail, d).None? && signUpError.None? then EmptySignup else d
  }

  /** A rejected or failed sign-up keeps what the user typed; an accepted form whose sign-up succeeds clears all four inputs, and nothing else does. */
  lemma SignupClearsOnlyOnSuccess(isEmail: string -> bool, d: SignupData, signUpError: Option<string>)
    ensures SignupAfter(isEmail, d, signUpError) == EmptySignup || SignupAfter(isEmail, d, signUpError) == d
    ensures SignupAfter(isEmail, d, signUpError) != d ==>
      Requests(SignupEffects(isEmail, d, signUpError)) == [SignUp(d.email, d.password, d.username)] &&
      signUpError.None?
    ensures (isEmail(d.email) && |d.password| >= MinPassword && |d.username| >= MinUsername
             && d.password == d.confirmPassword && signUpError.None?) ==>
      SignupAfter(isEmail, d, signUpError) == EmptySignup
  {
    SignupRequests(isEmail, d, signUpError);
    SignupAcceptsExactly(isEmail, d);
  }

  /** The page's state and the log of what it did. */
  class AuthController {
    /** The email-shape check of the schemas. */
    const isEmail: string -> bool
    var loading: bool
    var loginData: LoginData
    var signupData: SignupData
    var effects: seq<Effect<Request>>

    /** Between events the page is idle. */
    ghost predicate Valid()
      reads this
    {
      !loading
    }

    constructor (isEmail: string -> bool)
      ensures Valid() && this.isEmail == isEmail
      ensures loginData == EmptyLogin && signupData == EmptySignup && effects == []
    {
      this.isEmail := isEmail;
      loading := false;
      loginData := EmptyLogin;
      signupData := EmptySignup;
      effects := [];
    }

    /** A change in one login input. */
    method EditLogin(f: LoginField, value: string)
      modifies this`loginData
      ensures loginData == match f
        case LoginEmail => old(loginData).(email := value)
        case LoginPassword => old(loginData).(password := value)
    {
      match f {
        case LoginEmail => loginData := loginData.(email := value);
        case LoginPassword => loginData := loginData.(password := value);
      }
    }

    /** A change in one sign-up input. */
    method EditSignup(f: SignupField, value: string)
      modifies this`signupData
      ensures signupData == match f
        case SignupUsername => old(signupData).(username := value)
        case SignupEmail => old(signupData).(email := value)
        case SignupPassword => old(signupData).(password := value)
        case SignupConfirmPassword => old(signupData).(confirmPassword := value)
    {
      match f {
        case SignupUsername => signupData := signupData.(username := value);
        case SignupEmail => signupData := signupData.(email := value);
        case SignupPassword => signupData := signupData.(password := value);
        case SignupConfirmPassword => signupData := signupData.(confirmPassword := value);
      }
    }

    /** handleLogin, given what `signInWithPassword` answers. */
    method HandleLogin(signInError: Option<string>)
      requires Valid()
      modifies this`loading, this`effects
      ensures Valid()
      ensures effects == old(effects) + LoginEffects(isEmail, loginData, signInError)
    {
      var issue := ValidateLogin(isEmail, loginData);
      if issue.Some? {
        effects := effects + [Show(Failure(ValidationTitle, issue.value.message))];
        return;
      }
      loading := true;
      effects := effects + [SetLoading(true)];
      effects := effects + [Call(SignIn(loginData.email, loginData.password))];
      effects := effects + [Show(LoginReport(signInError))];
      loading := false;
      effects := effects + [SetLoading(false)];
    }

    /** handleSignup, given what `signUp` answers. */
    method HandleSignup(signUpError: Option<string>)
      requires Valid()
      modifies this`loading, this`effects, this`signupData
      ensures Valid()
      ensures effects == old(effects) + SignupEffects(isEmail, old(signupData), signUpError)
      ensures signupData == SignupAfter(isEmail, old(signupData), signUpError)
    {
      var d := signupData;
      var issue := ValidateSignup(isEmail, d);
      if issue.Some? {
        effects := effects + [Show(Failure(ValidationTitle, issue.value.message))];
        return;
      }
      loading := true;
      effects := effects + [SetLoading(true)];
      effects := effects + [Call(SignUp(d.email, d.password, d.username))];
      effects := effects + [Show(SignupReport(signUpError))];
      if signUpError.None? {
        signupData := EmptySignup;
      }
      loading := false;
      effects := effects + [SetLoading(false)];
    }
  }
}

=== FILE: dashboard.dfy ===
/** The management page (src/pages/Dashboard.tsx): the administrator gate, the
    roster and its search filter, the status badge and counters, and the
    handlers that load the roster, delete a student and react to a saved form. */
module Dashboard {
  import opened Effects
  import opened Text
  import SF = StudentForm

  type Student = SF.Student

  /** A row of `user_roles` as the page selects it. */
  datatype RoleRow = RoleRow(role: string)

  /** The remote requests of the page. */
  datatype Request =
    | GetSession
    | SelectRoles(userId: string)
    | SelectAlunos
    | DeleteAluno(id: string)

  /** What the roster query answered: rows (possibly null), or an error. */
  datatype LoadOutcome = Loaded(data: Option<seq<Student>>) | LoadFailed(message: string)

  // ---------------------------------------------------------------- search

  /** The search predicate: the lower-cased term occurs in the lower-cased name or enrollment code. */
  predicate Matches(s: Student, term: string)
  {
    Includes(Lower(s.nome), Lower(term)) || Includes(Lower(s.matricula), Lower(term))
  }

  /** The filtered roster: it holds exactly the students of the roster that match the term. */
  function FilterStudents(students: seq<Student>, term: string): (r: seq<Student>)
    ensures |r| <= |students|
    ensures forall x :: x in r <==> x in students && Matches(x, term)
  {
    if students == [] then []
    else (if Matches(students[0], term) then [students[0]] else []) + FilterStudents(students[1..], term)
  }

  /** `a` is `b` with some elements left out, the rest kept in order. */
  ghost predicate IsSubsequence<T>(a: seq<T>, b: seq<T>)
    decreases |b|
  {
    a == [] || (b != [] && ((a[0] == b[0] && IsSubsequence(a[1..], b[1..])) || IsSubsequence(a, b[1..])))
  }

  /** Filtering keeps the roster's order. */
  lemma {:induction false} FilterIsSubsequence(students: seq<Student>, term: string)
    ensures IsSubsequence(FilterStudents(students, term), students)
  {
    if students != [] {
      FilterIsSubsequence(students[1..], term);
      var rest := FilterStudents(students[1..], term);
      if Matches(students[0], term) {
        assert FilterStudents(students, term) == [students[0]] + rest;
        assert ([students[0]] + rest)[1..] == rest;
      } else {
        assert FilterStudents(students, term) == rest;
      }
    }
  }

  /** The search does not depend on the case of the term. */
  lemma MatchesIgnoresTermCase(s: Student, term: string)
    ensures Matches(s, Lower(term)) == Matches(s, term)
  {
    LowerIdempotent(term);
  }

  /** Filtering keeps each matching student as many times as the roster holds
      it and drops every other: with `FilterIsSubsequence`, the filtered list is
      exactly the matching subsequence. */
  lemma {:induction false} FilterKeepsMultiplicities(students: seq<Student>, term: string, x: Student)
    ensures multiset(FilterStudents(students, term))[x] ==
      if Matches(x, term) then multiset(students)[x] else 0
  {
    if students != [] {
      FilterKeepsMultiplicities(students[1..], term, x);
      var head := if Matches(students[0], term) then [students[0]] else [];
      assert multiset(FilterStudents(students, term)) == multiset(head) + multiset(FilterStudents(students[1..], term));
      assert students == [students[0]] + students[1..];
      assert multiset(students) == multiset([students[0]]) + multiset(students[1..]);
    }
  }

  /** A roster whose every student matches the term passes the filter unchanged. */
  lemma {:induction false} FilterKeepsMatchingRoster(students: seq<Student>, term: string)
    requires forall i :: 0 <= i < |students| ==> Matches(students[i], term)
    ensures FilterStudents(students, term) == students
  {
    if students != [] {
      assert Matches(students[0], term);
      FilterKeepsMatchingRoster(students[1..], term);
      assert students == [students[0]] + students[1..];
    }
  }

  /** Filtering an already filtered roster by the same term changes nothing. */
  lemma FilterIdempotent(students: seq<Student>, term: string)
    ensures FilterStudents(FilterStudents(students, term), term) == FilterStudents(students, term)
  {
    var r := FilterStudents(students, term);
    forall i | 0 <= i < |r|
      ensures Matches(r[i], term)
    {
      assert r[i] in r;
    }
    FilterKeepsMatchingRoster(r, term);
  }

  /** An empty search term shows the whole roster. */
  lemma {:induction false} FilterEmptyTermKeepsAll(students: seq<Student>)
    ensures FilterStudents(students, "") == students
  {
    if students != [] {
      assert Lower("") == "";
      IncludesEmpty(Lower(students[0].nome));
      assert Matches(students[0], "");
      FilterEmptyTermKeepsAll(students[1..]);
      assert students == [students[0]] + students[1..];
    }
  }

  // ---------------------------------------------------------------- roles

  /** `rows.some(r => r.role === 'admin')`. */
  function AnyAdmin(rows: seq<RoleRow>): (r: bool)
    ensures r <==> exists i :: 0 <= i < |rows| && rows[i].role == "admin"
  {
    if rows == [] then false
    else if rows[0].role == "admin" then true
    else
      var rest := AnyAdmin(rows[1..]);
      assert forall i :: 1 <= i < |rows| ==> rows[i] == rows[1..][i - 1];
      rest
  }

  /** `roles?.some(r => r.role === 'admin') || false`: an administrator
      exactly when the fetched roles hold an `admin` row; no roles, no access. */
  function HasAdminRole(roles: Option<seq<RoleRow>>): (r: bool)
    ensures r <==> roles.Some? && exists i :: 0 <= i < |roles.value| && roles.value[i].role == "admin"
    ensures roles.None? ==> !r
  {
    match roles
    case None => false
    case Some(rows) => AnyAdmin(rows)
  }

  // ---------------------------------------------------------------- badges and counters

  const SuccessBadge := "bg-success text-success-foreground"
  const WarningBadge := "bg-warning text-warning-foreground"
  const PrimaryBadge := "bg-primary text-primary-foreground"
  const MutedBadge := "bg-muted text-muted-foreground"

  /** getStatusColor: the badge classes for a status, compared without case. */
  function StatusColor(status: string): string
  {
    var key := Lower(status);
    if key == "ativo" then SuccessBadge
    else if key == "trancado" then WarningBadge
    else if key == "formado" then PrimaryBadge
    else MutedBadge
  }

  /** The badge does not depend on the case of the status. */
  lemma StatusColorIgnoresCase(status: string)
    ensures StatusColor(Lower(status)) == StatusColor(status)
  {
    LowerIdempotent(status);
  }

  /** Each status the form admits gets its own badge, whatever its case; none gets the muted one. */
  lemma FormStatusesHaveBadges()
    ensures StatusColor("Ativo") == SuccessBadge && StatusColor("ATIVO") == SuccessBadge
    ensures StatusColor("Trancado") == WarningBadge
    ensures StatusColor("Formado") == PrimaryBadge
    ensures forall s :: s in SF.Statuses ==> StatusColor(s) != MutedBadge
    ensures forall s :: Lower(s) == "ativo" ==> StatusColor(s) == SuccessBadge
    ensures forall s :: Lower(s) == "trancado" ==> StatusColor(s) == WarningBadge
    ensures forall s :: Lower(s) == "formado" ==> StatusColor(s) == PrimaryBadge
  {
    assert Lower("Ativo") == "ativo";
    assert Lower("ATIVO") == "ativo";
    assert Lower("Trancado") == "trancado";
    assert Lower("Formado") == "formado";
  }

  /** `students.filter(s => s.status === status).length`: exact, case-sensitive matches. */
  function CountStatus(students: seq<Student>, status: string): (n: nat)
    ensures n <= |students|
  {
    if students == [] then 0
    else (if students[0].status == status then 1 else 0) + CountStatus(students[1..], status)
  }

  /** Two counters of different statuses together never exceed the total. */
  lemma {:induction false} CountersWithinTotal(students: seq<Student>, a: string, b: string)
    requires a != b
    ensures CountStatus(students, a) + CountStatus(students, b) <= |students|
  {
    if students != [] {
      CountersWithinTotal(students[1..], a, b);
    }
  }

  /** The "Alunos Ativos" and "Alunos Formados" counters together never exceed "Total de Alunos". */
  lemma ActiveAndGraduatedWithinTotal(students: seq<Student>)
    ensures CountStatus(students, "Ativo") + CountStatus(students, "Formado") <= |students|
  {
    CountersWithinTotal(students, "Ativo", "Formado");
  }

  // ---------------------------------------------------------------- handlers

  const LoadFailedTitle := "Erro ao carregar alunos"
  const DeleteFailedTitle := "Erro ao excluir aluno"
  const DeletedTitle := "Aluno excluído com sucesso"
  const DeleteDenied := "Você não tem permissão para excluir alunos. Entre em contato com um administrador."

  /** What loadStudents does: nothing remote for a non-administrator; otherwise
      one roster query and, if it fails, one error toast. */
  function LoadEffects(isAdmin: bool, outcome: LoadOutcome): seq<Effect<Request>>
  {
    if !isAdmin then []
    else
      [Call(SelectAlunos)] +
      match outcome
      case Loaded(_) => []
      case LoadFailed(m) => [Show(Failure(LoadFailedTitle, m))]
  }

  /** The roster after loadStudents: the rows returned (none for null), or the old roster. */
  function Reloaded(isAdmin: bool, students: seq<Student>, outcome: LoadOutcome): seq<Student>
  {
    if isAdmin && outcome.Loaded? then
      match outcome.data
      case Some(rows) => rows
      case None => []
    else students
  }

  /** A non-administrator never queries the roster; a failed query keeps the
      last roster and raises one toast. */
  lemma LoadOnlyForAdministrators(isAdmin: bool, students: seq<Student>, outcome: LoadOutcome)
    ensures Requests(LoadEffects(isAdmin, outcome)) == (if isAdmin then [SelectAlunos] else [])
    ensures !isAdmin || outcome.LoadFailed? ==> Reloaded(isAdmin, students, outcome) == students
    ensures |Toasts(LoadEffects(isAdmin, outcome))| == (if isAdmin && outcome.LoadFailed? then 1 else 0)
  {
    if isAdmin {
      var tail: seq<Effect<Request>> := LoadEffects(isAdmin, outcome)[1..];
      RequestsAppend([Call(SelectAlunos)], tail);
      ToastsAppend([Call(SelectAlunos)], tail);
      assert LoadEffects(isAdmin, outcome) == [Call(SelectAlunos)] + tail;
    }
  }

  /** What handleDelete does for a selected student: one delete request; on
      success a toast and a reload, on a refusal by row-level security the
      permission message, on any other error the store's message. */
  function DeleteEffects(isAdmin: bool, target: Student, deleteError: Option<string>, reload: LoadOutcome)
    : seq<Effect<Request>>
  {
    [Call(DeleteAluno(target.id))] +
    match deleteError
    case None => [Show(Success(DeletedTitle))] + LoadEffects(isAdmin, reload)
    case Some(m) =>
      [Show(Failure(DeleteFailedTitle, if Includes(m, SF.RowLevelSecurity) then DeleteDenied else m))]
  }

  /** A delete issues exactly one delete request keyed by the student's id,
      and the roster is queried again exactly when the delete succeeded. */
  lemma DeleteReloadsOnlyOnSuccess(target: Student, deleteError: Option<string>, reload: LoadOutcome)
    ensures Requests(DeleteEffects(true, target, deleteError, reload)) ==
      [DeleteAluno(target.id)] + (if deleteError.None? then [SelectAlunos] else [])
    ensures deleteError.Some? && Includes(deleteError.value, SF.RowLevelSecurity) ==>
      Toasts(DeleteEffects(true, target, deleteError, reload)) == [Failure(DeleteFailedTitle, DeleteDenied)]
  {
    var es := DeleteEffects(true, target, deleteError, reload);
    var head: seq<Effect<Request>> := [Call(DeleteAluno(target.id))];
    RequestsAppend(head, es[1..]);
    ToastsAppend(head, es[1..]);
    assert es == head + es[1..];
    if deleteError.None? {
      var shown: seq<Effect<Request>> := [Show(Success(DeletedTitle))];
      RequestsAppend(shown, LoadEffects(true, reload));
      LoadOnlyForAdministrators(true, [], reload);
    }
  }

  /** Which screen the page renders. */
  datatype View = Spinner | AccessRestricted | Management

  /** The page's state fields and the log of what it did. */
  class ListController {
    var students: seq<Student>
    var filteredStudents: seq<Student>
    var loading: bool
    var searchTerm: string
    var isFormOpen: bool
    var editingStudent: Option<Student>
    var deletingStudent: Option<Student>
    var isAdmin: bool
    var checkingAccess: bool
    var effects: seq<Effect<Request>>

    /** The filter effect has run: the filtered list is the roster filtered by the search term. */
    ghost predicate Valid()
      reads this
    {
      filteredStudents == FilterStudents(students, searchTerm)
    }

    constructor ()
      ensures Valid()
      ensures students == [] && searchTerm == "" && loading && checkingAccess && !isAdmin
      ensures !isFormOpen && editingStudent.None? && deletingStudent.None? && effects == []
    {
      students := [];
      filteredStudents := [];
      loading := true;
      searchTerm := "";
      isFormOpen := false;
      editingStudent := None;
      deletingStudent := None;
      isAdmin := false;
      checkingAccess := true;
      effects := [];
    }

    /** The screen rendered: a spinner while access is checked or the roster
        loads, the restricted notice for a non-administrator, else the roster. */
    function CurrentView(): View
      reads this
    {
      if checkingAccess || loading then Spinner
      else if !isAdmin then AccessRestricted
      else Management
    }

    /** The effect on `searchTerm` and `students`. */
    method ApplyFilter()
      modifies this`filteredStudents
      ensures filteredStudents == FilterStudents(students, searchTerm)
    {
      filteredStudents := FilterStudents(students, searchTerm);
    }

    /** checkAuth, given the session and the role rows fetched for its user. */
    method CheckAuth(session: Option<string>, roles: Option<seq<RoleRow>>)
      requires Valid()
      modifies this`isAdmin, this`checkingAccess, this`effects
      ensures Valid()
      ensures session.None? ==>
        && isAdmin == old(isAdmin) && checkingAccess == old(checkingAccess)
        && effects == old(effects) + [Call(GetSession), Navigate("/auth")]
      ensures session.Some? ==>
        && isAdmin == HasAdminRole(roles) && !checkingAccess
        && effects == old(effects) + [Call(GetSession), Call(SelectRoles(session.value))]
    {
      effects := effects + [Call(GetSession)];
      if session.None? {
        effects := effects + [Navigate("/auth")];
        return;
      }
      effects := effects + [Call(SelectRoles(session.value))];
      isAdmin := HasAdminRole(roles);
      checkingAccess := false;
    }

    /** loadStudents, given what the roster query answers. */
    method LoadStudents(outcome: LoadOutcome)
      requires Valid()
      modifies this`students, this`filteredStudents, this`loading, this`effects
      ensures Valid() && !loading
      ensures students == Reloaded(isAdmin, old(students), outcome)
      ensures effects == old(effects) + LoadEffects(isAdmin, outcome)
    {
      if !isAdmin {
        loading := false;
        return;
      }
      effects := effects + [Call(SelectAlunos)];
      match outcome {
        case LoadFailed(m) =>
          effects := effects + [Show(Failure(LoadFailedTitle, m))];
        case Loaded(data) =>
          var rows := if data.Some? then data.value else [];
          students := rows;
          ApplyFilter();
      }
      loading := false;
    }

    /** The search input changes the term. */
    method SetSearchTerm(term: string)
      requires Valid()
      modifies this`searchTerm, this`filteredStudents
      ensures Valid() && searchTerm == term
    {
      searchTerm := term;
      ApplyFilter();
    }

    /** handleEdit: open the dialog on a student. */
    method HandleEdit(s: Student)
      modifies this`editingStudent, this`isFormOpen
      ensures editingStudent == Some(s) && isFormOpen
    {
      editingStudent := Some(s);
      isFormOpen := true;
    }

    /** The "Adicionar Aluno" button: open the dialog with no student. */
    method OpenCreate()
      modifies this`editingStudent, this`isFormOpen
      ensures editingStudent.None? && isFormOpen
    {
      editingStudent := None;
      isFormOpen := true;
    }

    /** The trash button of a row selects the student to delete. */
    method RequestDelete(s: Student)
      modifies this`deletingStudent
      ensures deletingStudent == Some(s)
    {
      deletingStudent := Some(s);
    }

    /** Closing the confirmation dialog forgets the selection. */
    method DismissDelete()
      modifies this`deletingStudent
      ensures deletingStudent.None?
    {
      deletingStudent := None;
    }

    /** handleDelete, given what the delete answers and what the reload it
        starts answers. */
    method HandleDelete(deleteError: Option<string>, reload: LoadOutcome)
      requires Valid()
      modifies this`students, this`filteredStudents, this`loading, this`effects, this`deletingStudent
      ensures Valid() && deletingStudent.None?
      ensures old(deletingStudent).None? ==>
        students == old(students) && loading == old(loading) && effects == old(effects)
      ensures old(deletingStudent).Some? ==>
        && effects == old(effects) + DeleteEffects(isAdmin, old(deletingStudent).value, deleteError, reload)
        && students == (if deleteError.None? then Reloaded(isAdmin, old(students), reload) else old(students))
        && loading == (if deleteError.None? then false else old(loading))
    {
      if deletingStudent.None? {
        return;
      }
      var target := deletingStudent.value;
      effects := effects + [Call(DeleteAluno(target.id))];
      if deleteError.Some? {
        if Includes(deleteError.value, SF.RowLevelSecurity) {
          effects := effects + [Show(Failure(DeleteFailedTitle, DeleteDenied))];
        } else {
          effects := effects + [Show(Failure(DeleteFailedTitle, deleteError.value))];
        }
      } else {
        effects := effects + [Show(Success(DeletedTitle))];
        LoadStudents(reload);
      }
      deletingStudent := None;
    }

    /** handleFormSuccess: close the dialog, forget the edited student, reload. */
    method HandleFormSuccess(reload: LoadOutcome)
      requires Valid()
      modifies this`isFormOpen, this`editingStudent, this`students, this`filteredStudents, this`loading, this`effects
      ensures Valid() && !isFormOpen && editingStudent.None? && !loading
      ensures students == Reloaded(isAdmin, old(students), reload)
      ensures effects == old(effects) + LoadEffects(isAdmin, reload)
    {
      isFormOpen := false;
      editingStudent := None;
      LoadStudents(reload);
    }
  }

  /** A session without an `admin` role: access is decided, the restricted
      notice is shown and the roster is never queried, whatever it would answer. */
  method NonAdministratorSession(uid: string, roles: Option<seq<RoleRow>>, outcome: LoadOutcome)
    returns (view: View, requests: seq<Request>, roster: seq<Student>)
    requires !HasAdminRole(roles)
    ensures view == AccessRestricted
    ensures requests == [GetSession, SelectRoles(uid)]
    ensures roster == []
  {
    var page := new ListController();
    page.CheckAuth(Some(uid), roles);
    page.LoadStudents(outcome);
    view := page.CurrentView();
    requests := Requests(page.effects);
    roster := page.students;
    var es: seq<Effect<Request>> := [Call(GetSession), Call(SelectRoles(uid))];
    assert page.effects == es;
    assert Requests(es[1..]) == [SelectRoles(uid)] by {
      assert es[1..][1..] == [];
    }
  }
}

=== FILE: effects.dfy ===
/** The observable effects of the page handlers: the busy flag they set, the
    remote requests they issue, the notifications (toasts) they raise and the
    callbacks and navigations they trigger. Each handler of the model appends
    its effects, in order, to a log; the predicates here read such a log. */
module Effects {

  datatype Option<+T> = None | Some(value: T)

  /** A toast: a title, an optional description and whether it is destructive. */
  datatype Toast = Toast(title: string, description: Option<string>, destructive: bool)

  function Failure(title: string, description: string): Toast
  {
    Toast(title, Some(description), true)
  }

  function Success(title: string): Toast
  {
    Toast(title, None, false)
  }

  /** Title of the toast raised when a schema rejects the input. */
  const ValidationTitle := "Erro de validação"

  /** One observable step of a handler, over the requests `R` of its page. */
  datatype Effect<R> =
    | SetLoading(on: bool)
    | Call(request: R)
    | Show(toast: Toast)
    | OnSuccess
    | Navigate(path: string)

  /** The requests issued, in order. */
  function Requests<R>(es: seq<Effect<R>>): seq<R>
  {
    if es == [] then []
    else (if es[0].Call? then [es[0].request] else []) + Requests(es[1..])
  }

  /** The toasts raised, in order. */
  function Toasts<R>(es: seq<Effect<R>>): seq<Toast>
  {
    if es == [] then []
    else (if es[0].Show? then [es[0].toast] else []) + Toasts(es[1..])
  }

  lemma {:induction false} RequestsAppend<R>(a: seq<Effect<R>>, b: seq<Effect<R>>)
    ensures Requests(a + b) == Requests(a) + Requests(b)
  {
    if a != [] {
      assert (a + b)[1..] == a[1..] + b;
      RequestsAppend(a[1..], b);
    } else {
      assert a + b == b;
    }
  }

  lemma {:induction false} ToastsAppend<R>(a: seq<Effect<R>>, b: seq<Effect<R>>)
    ensures Toasts(a + b) == Toasts(a) + Toasts(b)
  {
    if a != [] {
      assert (a + b)[1..] == a[1..] + b;
      ToastsAppend(a[1..], b);
    } else {
      assert a + b == b;
    }
  }

  /** The value of the busy flag after replaying `es` from `busy`. */
  function LoadingAfter<R>(busy: bool, es: seq<Effect<R>>): bool
    decreases |es|
  {
    if es == [] then busy
    else LoadingAfter(if es[0].SetLoading? then es[0].on else busy, es[1..])
  }

  /** Replayed from `busy`, every request of `es` is issued while the flag is on. */
  predicate CallsWhileLoading<R>(busy: bool, es: seq<Effect<R>>)
    decreases |es|
  {
    es == [] ||
    ((es[0].Call? ==> busy) &&
     CallsWhileLoading(if es[0].SetLoading? then es[0].on else busy, es[1..]))
  }

  /** `es` never touches the busy flag. */
  predicate KeepsLoading<R>(es: seq<Effect<R>>)
  {
    forall i :: 0 <= i < |es| ==> !es[i].SetLoading?
  }

  lemma {:induction false} ReplayAppend<R>(busy: bool, a: seq<Effect<R>>, b: seq<Effect<R>>)
    ensures LoadingAfter(busy, a + b) == LoadingAfter(LoadingAfter(busy, a), b)
    ensures CallsWhileLoading(busy, a + b) <==>
            CallsWhileLoading(busy, a) && CallsWhileLoading(LoadingAfter(busy, a), b)
    decreases |a|
  {
    if a == [] {
      assert a + b == b;
    } else {
      assert (a + b)[1..] == a[1..] + b;
      ReplayAppend(if a[0].SetLoading? then a[0].on else busy, a[1..], b);
    }
  }

  /** A run that never touches the flag, started busy, issues everything while busy and stays busy. */
  lemma {:induction false} BusyThroughout<R>(es: seq<Effect<R>>)
    requires KeepsLoading(es)
    ensures CallsWhileLoading(true, es) && LoadingAfter(true, es)
  {
    if es != [] {
      assert !es[0].SetLoading?;
      BusyThroughout(es[1..]);
    }
  }

  /** The shape shared by the submit handlers: a schema rejection raises one
      validation toast and stops; otherwise `body` runs between setting the busy
      flag and clearing it. */
  function Gated<R>(rejection: Option<string>, body: seq<Effect<R>>): seq<Effect<R>>
  {
    match rejection
    case Some(message) => [Show(Failure(ValidationTitle, message))]
    case None => [SetLoading(true)] + body + [SetLoading(false)]
  }

  /** A rejected submission issues no request, never sets the busy flag and raises exactly the validation toast. */
  lemma GatedRejects<R>(message: string, body: seq<Effect<R>>)
    ensures Requests(Gated(Some(message), body)) == []
    ensures Toasts(Gated(Some(message), body)) == [Failure(ValidationTitle, message)]
    ensures KeepsLoading(Gated(Some(message), body))
  {
  }

  /** An accepted submission issues the body's requests and toasts, all of
      its requests while the flag is on, and ends with the flag off. */
  lemma {:induction false} GatedRuns<R>(body: seq<Effect<R>>)
    requires KeepsLoading(body)
    ensures Requests(Gated(None, body)) == Requests(body)
    ensures Toasts(Gated(None, body)) == Toasts(body)
    ensures CallsWhileLoading(false, Gated(None, body))
    ensures !LoadingAfter(false, Gated(None, body))
  {
    var on: seq<Effect<R>> := [SetLoading(true)];
    var off: seq<Effect<R>> := [SetLoading(false)];
    RequestsAppend(on, body);
    RequestsAppend(on + body, off);
    ToastsAppend(on, body);
    ToastsAppend(on + body, off);
    BusyThroughout(body);
    ReplayAppend(false, on, body);
    ReplayAppend(false, on + body, off);
  }
}

=== FILE: schema.dfy ===
/** The part of the Zod schema library that the forms rely on: a parse collects
    every issue, field by field in the order the object declares them and check
    by check in the order each field chains them, and the forms report the first. */
module Schema {
  import opened Effects

  /** A validation issue: the field it is attached to and its message. */
  datatype Issue = Issue(path: string, message: string)

  /** One check of a field: no issue when it passes. */
  function Check(passes: bool, path: string, message: string): seq<Issue>
  {
    if passes then [] else [Issue(path, message)]
  }

  /** `error.errors[0]`: the first issue of a failed parse, or none when the parse succeeds. */
  function FirstIssue(issues: seq<Issue>): Option<Issue>
  {
    if issues == [] then None else Some(issues[0])
  }

  /** The message a rejected submission shows, if any. */
  function Rejection(issue: Option<Issue>): Option<string>
  {
    match issue
    case None => None
    case Some(i) => Some(i.message)
  }
}

=== FILE: student_form.dfy ===
/** The student dialog (src/components/StudentForm.tsx): the record schema, the
    seeding of the form from the student being edited, and the submit
    transaction that validates, resolves the user, issues one update or insert
    and reports the outcome. */
module StudentForm {
  import opened Effects
  import opened Text
  import opened Schema

  /** A row of the `alunos` table as the pages read it. */
  datatype Student = Student(
    id: string,
    nome: string,
    matricula: string,
    email: string,
    data_nascimento: string,
    curso: string,
    status: string)

  /** The six editable fields of the dialog. */
  datatype FormData = FormData(
    nome: string,
    matricula: string,
    email: string,
    data_nascimento: string,
    curso: string,
    status: string)

  /** The fields, in the order the schema declares them. */
  datatype Field = Nome | Matricula | Email | DataNascimento | Curso | Status

  function Rank(f: Field): nat
  {
    match f
    case Nome => 0
    case Matricula => 1
    case Email => 2
    case DataNascimento => 3
    case Curso => 4
    case Status => 5
  }

  /** The values `z.enum` admits for `status`. */
  const Statuses: seq<string> := ["Ativo", "Trancado", "Formado"]

  const DefaultStatus := "Ativo"

  // Messages written in the schema.
  const NomeTooShort := "Nome deve ter no mínimo 3 caracteres"
  const MatriculaMissing := "Matrícula é obrigatória"
  const EmailInvalid := "Email inválido"
  const BirthDateMissing := "Data de nascimento é obrigatória"
  const CursoTooShort := "Curso deve ter no mínimo 3 caracteres"

  // Zod's own messages for the checks that the schema leaves without one.
  const AtMost50 := "String must contain at most 50 character(s)"
  const AtMost100 := "String must contain at most 100 character(s)"
  const AtMost255 := "String must contain at most 255 character(s)"

  function StatusNotInEnum(received: string): string
  {
    "Invalid enum value. Expected 'Ativo' | 'Trancado' | 'Formado', received '" + received + "'"
  }

  /** The issues one field raises, check by check in the order they are chained. */
  function FieldIssues(isEmail: string -> bool, d: FormData, f: Field): seq<Issue>
  {
    match f
    case Nome =>
      Check(|d.nome| >= 3, "nome", NomeTooShort) + Check(|d.nome| <= 100, "nome", AtMost100)
    case Matricula =>
      Check(|d.matricula| >= 1, "matricula", MatriculaMissing) + Check(|d.matricula| <= 50, "matricula", AtMost50)
    case Email =>
      Check(isEmail(d.email), "email", EmailInvalid) + Check(|d.email| <= 255, "email", AtMost255)
    case DataNascimento =>
      Check(|d.data_nascimento| >= 1, "data_nascimento", BirthDateMissing)
    case Curso =>
      Check(|d.curso| >= 3, "curso", CursoTooShort) + Check(|d.curso| <= 100, "curso", AtMost100)
    case Status =>
      Check(d.status in Statuses, "status", StatusNotInEnum(d.status))
  }

  /** Every issue `studentSchema.parse` collects, field by field. */
  function Issues(isEmail: string -> bool, d: FormData): seq<Issue>
  {
    FieldIssues(isEmail, d, Nome) + FieldIssues(isEmail, d, Matricula) + FieldIssues(isEmail, d, Email)
    + FieldIssues(isEmail, d, DataNascimento) + FieldIssues(isEmail, d, Curso) + FieldIssues(isEmail, d, Status)
  }

  /** The issue reported for a form, checked rule by rule in schema order,
      or none when the schema accepts it. */
  function Validate(isEmail: string -> bool, d: FormData): Option<Issue>
  {
    if |d.nome| < 3 then Some(Issue("nome", NomeTooShort))
    else if |d.nome| > 100 then Some(Issue("nome", AtMost100))
    else if |d.matricula| < 1 then Some(Issue("matricula", MatriculaMissing))
    else if |d.matricula| > 50 then Some(Issue("matricula", AtMost50))
    else if !isEmail(d.email) then Some(Issue("email", EmailInvalid))
    else if |d.email| > 255 then Some(Issue("email", AtMost255))
    else if |d.data_nascimento| < 1 then Some(Issue("data_nascimento", BirthDateMissing))
    else if |d.curso| < 3 then Some(Issue("curso", CursoTooShort))
    else if |d.curso| > 100 then Some(Issue("curso", AtMost100))
    else if d.status !in Statuses then Some(Issue("status", StatusNotInEnum(d.status)))
    else None
  }

  /** A form is accepted exactly when every rule of the schema holds. */
  lemma ValidateAcceptsExactly(isEmail: string -> bool, d: FormData)
    ensures Validate(isEmail, d).None? <==>
      && 3 <= |d.nome| <= 100
      && 1 <= |d.matricula| <= 50
      && isEmail(d.email) && |d.email| <= 255
      && d.data_nascimento != ""
      && 3 <= |d.curso| <= 100
      && d.status in Statuses
  {
  }

  /** What the dialog reports is what the schema reports: the first of all
      the issues the parse collects. */
  lemma ValidateIsFirstIssue(isEmail: string -> bool, d: FormData)
    ensures Validate(isEmail, d) == FirstIssue(Issues(isEmail, d))
  {
  }

  /** The reported issue is the first issue of the first field, in schema
      order, that fails a check. */
  lemma ValidateReportsFirstRejectedField(isEmail: string -> bool, d: FormData, f: Field)
    requires FieldIssues(isEmail, d, f) != []
    requires forall g :: Rank(g) < Rank(f) ==> FieldIssues(isEmail, d, g) == []
    ensures Validate(isEmail, d) == Some(FieldIssues(isEmail, d, f)[0])
  {
    ValidateIsFirstIssue(isEmail, d);
    assert Rank(Nome) == 0 && Rank(Matricula) == 1 && Rank(Email) == 2;
    assert Rank(DataNascimento) == 3 && Rank(Curso) == 4;
  }

  /** A candidate whose name has fewer than three letters is rejected for its
      name, whatever the other fields hold and whatever the email check says. */
  lemma ShortNameRejectedFirst(isEmail: string -> bool, d: FormData)
    requires |d.nome| < 3
    ensures Validate(isEmail, d) == Some(Issue("nome", NomeTooShort))
  {
  }

  /** The values the form starts from: a copy of the student being edited, or
      empty fields with the default status when a new student is created. */
  function Seed(target: Option<Student>): FormData
  {
    match target
    case Some(s) => FormData(s.nome, s.matricula, s.email, s.data_nascimento, s.curso, s.status)
    case None => FormData("", "", "", "", "", DefaultStatus)
  }

  /** Seeding from a student copies all six fields: with the student's id they give back the student. */
  lemma SeedCopiesStudent(s: Student)
    ensures var d := Seed(Some(s));
      Student(s.id, d.nome, d.matricula, d.email, d.data_nascimento, d.curso, d.status) == s
  {
  }

  /** An untouched creation form is empty except for the status "Ativo", and is rejected for its name. */
  lemma NewFormRejected(isEmail: string -> bool)
    ensures Seed(None) == FormData("", "", "", "", "", "Ativo")
    ensures Validate(isEmail, Seed(None)) == Some(Issue("nome", NomeTooShort))
  {
  }

  /** `{...formData, [field]: value}` as the inputs' change handlers build it. */
  function Assign(d: FormData, f: Field, value: string): FormData
  {
    match f
    case Nome => d.(nome := value)
    case Matricula => d.(matricula := value)
    case Email => d.(email := value)
    case DataNascimento => d.(data_nascimento := value)
    case Curso => d.(curso := value)
    case Status => d.(status := value)
  }

  /** The remote requests of the dialog. */
  datatype Request =
    | GetUser
    | UpdateAluno(id: string, changes: FormData)
    | InsertAluno(row: FormData, createdBy: string)

  const RowLevelSecurity := "row-level security"
  const DuplicateKey := "duplicate key"

  const SaveFailedTitle := "Erro ao salvar aluno"
  const UpdateFailedTitle := "Erro ao atualizar aluno"
  const InsertFailedTitle := "Erro ao cadastrar aluno"
  const UpdatedTitle := "Aluno atualizado com sucesso"
  const InsertedTitle := "Aluno cadastrado com sucesso"
  const UpdateDenied := "Você não tem permissão para atualizar alunos. Entre em contato com um administrador."
  const InsertDenied := "Você não tem permissão para adicionar alunos. Entre em contato com um administrador."
  const DuplicateMatricula := "Matrícula já cadastrada"
  const NotAuthenticated := "Usuário não autenticado"

  /** The single write for user `uid`: an update keyed by the edited
      student's id, or an insert of the form stamped with its creator. */
  function WriteRequest(d: FormData, target: Option<Student>, uid: string): Request
  {
    match target
    case Some(s) => UpdateAluno(s.id, d)
    case None => InsertAluno(d, uid)
  }

  /** The toast for a failed write, by the text of the store's error. */
  function WriteFailure(editing: bool, message: string): Toast
  {
    if Includes(message, RowLevelSecurity) then
      if editing then Failure(UpdateFailedTitle, UpdateDenied) else Failure(InsertFailedTitle, InsertDenied)
    else if !editing && Includes(message, DuplicateKey) then
      Failure(InsertFailedTitle, DuplicateMatricula)
    else
      Failure(SaveFailedTitle, message)
  }

  /** A row-level security refusal is named as missing permission, and it is
      tested first; on insert a duplicate key is named as a taken enrollment
      code; anything else shows the store's own message. */
  lemma WriteFailureClassifies(editing: bool, message: string)
    ensures WriteFailure(editing, message).destructive
    ensures Includes(message, RowLevelSecurity) ==>
      WriteFailure(editing, message).description == Some(if editing then UpdateDenied else InsertDenied)
    ensures !Includes(message, RowLevelSecurity) && !editing && Includes(message, DuplicateKey) ==>
      WriteFailure(editing, message).description == Some(DuplicateMatricula)
    ensures !Includes(message, RowLevelSecurity) && (editing || !Includes(message, DuplicateKey)) ==>
      WriteFailure(editing, message) == Failure(SaveFailedTitle, message)
  {
  }

  /** What follows the write's answer: a success toast and the `onSuccess` callback, or one failure toast. */
  function WriteReport(target: Option<Student>, writeError: Option<string>): seq<Effect<Request>>
  {
    match writeError
    case None => [Show(Success(if target.Some? then UpdatedTitle else InsertedTitle)), OnSuccess]
    case Some(m) => [Show(WriteFailure(target.Some?, m))]
  }

  /** What handleSubmit does once `getUser` has answered: without a user it
      fails before any write; with one it issues the write and reports its answer. */
  function AfterUser(d: FormData, target: Option<Student>, user: Option<string>, writeError: Option<string>)
    : seq<Effect<Request>>
  {
    match user
    case None => [Show(Failure(SaveFailedTitle, NotAuthenticated))]
    case Some(uid) => [Call(WriteRequest(d, target, uid))] + WriteReport(target, writeError)
  }

  /** The try block of handleSubmit and its catch clause. */
  function SubmitBody(d: FormData, target: Option<Student>, user: Option<string>, writeError: Option<string>)
    : seq<Effect<Request>>
  {
    [Call(GetUser)] + AfterUser(d, target, user, writeError)
  }

  /** Everything one submission of form `d` does. */
  function SubmitEffects(isEmail: string -> bool, d: FormData, target: Option<Student>,
                         user: Option<string>, writeError: Option<string>): seq<Effect<Request>>
  {
    Gated(Rejection(Validate(isEmail, d)), SubmitBody(d, target, user, writeError))
  }

  lemma SubmitBodyKeepsLoading(d: FormData, target: Option<Student>, user: Option<string>, writeError: Option<string>)
    ensures KeepsLoading(SubmitBody(d, target, user, writeError))
  {
  }

  /** A rejected form issues no request; an accepted one asks for the user
      and, only when there is one, issues exactly one write. */
  lemma SubmitRequests(isEmail: string -> bool, d: FormData, target: Option<Student>,
                       user: Option<string>, writeError: Option<string>)
    ensures Requests(SubmitEffects(isEmail, d, target, user, writeError)) ==
      if Validate(isEmail, d).Some? then []
      else [GetUser] + (if user.Some? then [WriteRequest(d, target, user.value)] else [])
    ensures Validate(isEmail, d).None? && user.Some? ==>
      Requests(SubmitEffects(isEmail, d, target, user, writeError)) ==
        [GetUser, if target.Some? then UpdateAluno(target.value.id, d) else InsertAluno(d, user.value)]
  {
    var body := SubmitBody(d, target, user, writeError);
    match Validate(isEmail, d)
    case Some(issue) =>
      GatedRejects(issue.message, body);
    case None =>
      SubmitBodyKeepsLoading(d, target, user, writeError);
      GatedRuns(body);
      var first: seq<Effect<Request>> := [Call(GetUser)];
      RequestsAppend(first, body[1..]);
      assert body == first + body[1..];
      assert Requests(first) == [GetUser];
      if user.Some? {
        var write: seq<Effect<Request>> := [Call(WriteRequest(d, target, user.value))];
        var report := WriteReport(target, writeError);
        RequestsAppend(write, report);
        assert Requests(write) == [WriteRequest(d, target, user.value)];
        assert Requests(report) == [] by {
          assert report[1..] == [] || Requests(report[1..]) == [];
        }
      } else {
        assert Requests(body[1..]) == [];
      }
  }

  /** Every submission raises exactly one toast: the first issue of a
      rejected form, the missing user, the write's failure or its success. */
  lemma SubmitNotifiesOnce(isEmail: string -> bool, d: FormData, target: Option<Student>,
                           user: Option<string>, writeError: Option<string>)
    ensures var ts := Toasts(SubmitEffects(isEmail, d, target, user, writeError));
      && |ts| == 1
      && (Validate(isEmail, d).Some? ==> ts[0] == Failure(ValidationTitle, Validate(isEmail, d).value.message))
      && (Validate(isEmail, d).None? && user.None? ==> ts[0] == Failure(SaveFailedTitle, NotAuthenticated))
      && (Validate(isEmail, d).None? && user.Some? && writeError.Some? ==>
            ts[0] == WriteFailure(target.Some?, writeError.value))
      && (Validate(isEmail, d).None? && user.Some? && writeError.None? ==>
            !ts[0].destructive && ts[0] == Success(if target.Some? then UpdatedTitle else InsertedTitle))
  {
    var body := SubmitBody(d, target, user, writeError);
    match Validate(isEmail, d)
    case Some(issue) =>
      GatedRejects(issue.message, body);
    case None =>
      SubmitBodyKeepsLoading(d, target, user, writeError);
      GatedRuns(body);
      var first: seq<Effect<Request>> := [Call(GetUser)];
      ToastsAppend(first, body[1..]);
      assert body == first + body[1..];
      assert Toasts(first) == [];
      if user.Some? {
        var write: seq<Effect<Request>> := [Call(WriteRequest(d, target, user.value))];
        var report := WriteReport(target, writeError);
        ToastsAppend(write, report);
        assert Toasts(write) == [];
        assert Toasts(report) == [report[0].toast] by {
          assert report[1..] == [] || Toasts(report[1..]) == [];
        }
      } else {
        assert Toasts(body[1..]) == [Failure(SaveFailedTitle, NotAuthenticated)];
      }
  }

  /** `onSuccess` is called exactly when the form is accepted, there is a
      user and the write raised no error. */
  lemma SubmitCallsBackOnlyOnSuccess(isEmail: string -> bool, d: FormData, target: Option<Student>,
                                     user: Option<string>, writeError: Option<string>)
    ensures OnSuccess in SubmitEffects(isEmail, d, target, user, writeError) <==>
      Validate(isEmail, d).None? && user.Some? && writeError.None?
  {
  }

  /** The busy flag is never set for a rejected form; for an accepted one,
      every request is issued while it is on and it is off at the end. */
  lemma SubmitLoadingBracket(isEmail: string -> bool, d: FormData, target: Option<Student>,
                             user: Option<string>, writeError: Option<string>)
    ensures var es := SubmitEffects(isEmail, d, target, user, writeError);
      && CallsWhileLoading(false, es)
      && !LoadingAfter(false, es)
      && (Validate(isEmail, d).Some? ==> KeepsLoading(es))
  {
    var body := SubmitBody(d, target, user, writeError);
    match Validate(isEmail, d)
    case Some(issue) =>
      GatedRejects(issue.message, body);
    case None =>
      SubmitBodyKeepsLoading(d, target, user, writeError);
      GatedRuns(body);
  }

  /** An edit sends the form as it stands, keyed by the edited student's id:
      when the form still carries the student's enrollment code, so does the update. */
  lemma EditSendsOriginalMatricula(isEmail: string -> bool, s: Student, d: FormData,
                                   user: Option<string>, writeError: Option<string>)
    requires d.matricula == s.matricula
    ensures forall r :: r in Requests(SubmitEffects(isEmail, d, Some(s), user, writeError)) ==>
      r == GetUser || (r.UpdateAluno? && r.id == s.id && r.changes.matricula == s.matricula)
  {
    SubmitRequests(isEmail, d, Some(s), user, writeError);
  }

  /** The dialog's state: the student being edited (none when creating), the
      form, the busy flag and the log of what the dialog did. */
  class FormController {
    /** The email-shape check of the schema. */
    const isEmail: string -> bool
    var student: Option<Student>
    var formData: FormData
    var loading: bool
    var effects: seq<Effect<Request>>

    /** Between events the dialog is idle, and while editing the enrollment
        code is the edited student's: its input is disabled. */
    ghost predicate Valid()
      reads this
    {
      !loading && (student.Some? ==> formData.matricula == student.value.matricula)
    }

    constructor (isEmail: string -> bool, student: Option<Student>)
      ensures Valid()
      ensures this.isEmail == isEmail && this.student == student
      ensures formData == Seed(student) && effects == []
    {
      this.isEmail := isEmail;
      this.student := student;
      formData := Seed(student);
      loading := false;
      effects := [];
    }

    /** The dialog is given a target. The seeding effect depends on `student`,
        so the form is reseeded only when the target differs from the last one;
        otherwise whatever was typed stays. */
    method Open(target: Option<Student>)
      requires Valid()
      modifies this`student, this`formData
      ensures Valid()
      ensures student == target
      ensures formData == if target == old(student) then old(formData) else Seed(target)
    {
      if target != student {
        student := target;
        formData := Seed(target);
      }
    }

    /** A change in one input. The enrollment-code input is disabled while
        editing, so it cannot change then. */
    method Edit(f: Field, value: string)
      requires Valid()
      modifies this`formData
      ensures Valid()
      ensures formData == if f == Matricula && student.Some? then old(formData) else Assign(old(formData), f, value)
    {
      if f == Matricula && student.Some? {
        return;
      }
      formData := Assign(formData, f, value);
    }

    method SetLoading(on: bool)
      modifies this`loading, this`effects
      ensures loading == on && effects == old(effects) + [Effects.SetLoading(on)]
    {
      loading := on;
      effects := effects + [Effects.SetLoading(on)];
    }

    /** The update branch of the try block: the error it rethrows to the catch clause, if any. */
    method Update(writeError: Option<string>) returns (thrown: Option<string>)
      requires student.Some?
      modifies this`effects
      ensures thrown == if writeError.Some? && !Includes(writeError.value, RowLevelSecurity) then writeError else None
      ensures thrown.Some? ==> WriteReport(student, writeError) == [Show(Failure(SaveFailedTitle, thrown.value))]
      ensures effects == old(effects) + [Call(UpdateAluno(student.value.id, formData))]
                         + (if thrown.Some? then [] else WriteReport(student, writeError))
    {
      thrown := None;
      effects := effects + [Call(UpdateAluno(student.value.id, formData))];
      if writeError.Some? && Includes(writeError.value, RowLevelSecurity) {
        effects := effects + [Show(Failure(UpdateFailedTitle, UpdateDenied))];
      } else if writeError.Some? {
        thrown := writeError;
      } else {
        effects := effects + [Show(Success(UpdatedTitle)), OnSuccess];
      }
    }

    /** The insert branch of the try block: the error it rethrows to the catch clause, if any. */
    method Insert(uid: string, writeError: Option<string>) returns (thrown: Option<string>)
      requires student.None?
      modifies this`effects
      ensures thrown == if writeError.Some? && !Includes(writeError.value, RowLevelSecurity)
                           && !Includes(writeError.value, DuplicateKey) then writeError else None
      ensures thrown.Some? ==> WriteReport(student, writeError) == [Show(Failure(SaveFailedTitle, thrown.value))]
      ensures effects == old(effects) + [Call(InsertAluno(formData, uid))]
                         + (if thrown.Some? then [] else WriteReport(student, writeError))
    {
      thrown := None;
      effects := effects + [Call(InsertAluno(formData, uid))];
      if writeError.Some? && Includes(writeError.value, RowLevelSecurity) {
        effects := effects + [Show(Failure(InsertFailedTitle, InsertDenied))];
      } else if writeError.Some? && Includes(writeError.value, DuplicateKey) {
        effects := effects + [Show(Failure(InsertFailedTitle, DuplicateMatricula))];
      } else if writeError.Some? {
        thrown := writeError;
      } else {
        effects := effects + [Show(Success(InsertedTitle)), OnSuccess];
      }
    }

    /** The try block after `getUser` answered, with its catch clause. */
    method WriteAndReport(user: Option<string>, writeError: Option<string>)
      modifies this`effects
      ensures effects == old(effects) + AfterUser(formData, student, user, writeError)
    {
      var thrown: Option<string>;
      if user.None? {
        thrown := Some(NotAuthenticated);
      } else if student.Some? {
        thrown := Update(writeError);
      } else {
        thrown := Insert(user.value, writeError);
      }
      if thrown.Some? {
        effects := effects + [Show(Failure(SaveFailedTitle, thrown.value))];
      }
    }

    /** The try block, its catch clause and its finally clause, run once the
        form is accepted: the busy flag is on throughout. */
    method Save(user: Option<string>, writeError: Option<string>)
      modifies this`loading, this`effects
      ensures !loading
      ensures effects == old(effects) + [Effects.SetLoading(true), Call(GetUser)]
                         + AfterUser(formData, student, user, writeError) + [Effects.SetLoading(false)]
    {
      SetLoading(true);
      effects := effects + [Call(GetUser)];
      WriteAndReport(user, writeError);
      SetLoading(false);
    }

    /** handleSubmit, given what `getUser` returns and what the write answers. */
    method Submit(user: Option<string>, writeError: Option<string>)
      requires Valid()
      modifies this`loading, this`effects
      ensures Valid()
      ensures effects == old(effects) + SubmitEffects(isEmail, formData, student, user, writeError)
    {
      var issue := Validate(isEmail, formData);
      if issue.Some? {
        effects := effects + [Show(Failure(ValidationTitle, issue.value.message))];
        return;
      }
      ghost var before := effects;
      Save(user, writeError);
      ghost var after := AfterUser(formData, student, user, writeError);
      assert [Effects.SetLoading(true), Call(GetUser)] + after
          == [Effects.SetLoading(true)] + SubmitBody(formData, student, user, writeError);
    }
  }

  /** Typing a name in the creation dialog, submitting and opening the
      creation dialog again: the target stays "no student", so the seeding
      effect does not run and the name typed before is still there. */
  method ReopenedCreateFormKeepsInput(isEmail: string -> bool, user: Option<string>, writeError: Option<string>)
    returns (nome: string)
    ensures nome == "Maria"
  {
    var dialog := new FormController(isEmail, None);
    dialog.Edit(Nome, "Maria");
    dialog.Submit(user, writeError);
    dialog.Open(None);
    nome := dialog.formData.nome;
  }

  /** Opening the dialog on a student, changing any one input and submitting:
      whatever the inputs and the answers, every request is `getUser` or an
      update of that student that carries its original enrollment code. */
  method EditedSubmissionSendsOriginalCode(isEmail: string -> bool, s: Student, f: Field, value: string,
                                           user: Option<string>, writeError: Option<string>)
    returns (requests: seq<Request>)
    ensures forall r :: r in requests ==>
      r == GetUser || (r.UpdateAluno? && r.id == s.id && r.changes.matricula == s.matricula)
  {
    var dialog := new FormController(isEmail, Some(s));
    dialog.Edit(f, value);
    dialog.Submit(user, writeError);
    assert dialog.student == Some(s) && dialog.Valid();
    assert dialog.formData.matricula == s.matricula;
    var submitted := SubmitEffects(isEmail, dialog.formData, Some(s), user, writeError);
    assert dialog.effects == [] + submitted == submitted;
    EditSendsOriginalMatricula(isEmail, s, dialog.formData, user, writeError);
    requests := Requests(submitted);
  }
}

=== FILE: text.dfy ===
/** String helpers used by the roster search and the status badge:
    ASCII lower-casing and JavaScript's `String.prototype.includes`. */
module Text {

  /** Lower-cases one ASCII letter; every other character is kept. */
  function LowerChar(c: char): char
  {
    if 'A' <= c <= 'Z' then (c as int + 32) as char else c
  }

  /** `toLowerCase`, restricted to ASCII letters. */
  function Lower(s: string): string
  {
    seq(|s|, i requires 0 <= i < |s| => LowerChar(s[i]))
  }

  /** Lower-casing twice is lower-casing once. */
  lemma LowerIdempotent(s: string)
    ensures Lower(Lower(s)) == Lower(s)
  {
    var once := Lower(s);
    forall i | 0 <= i < |s|
      ensures Lower(once)[i] == once[i]
    {
      assert once[i] == LowerChar(s[i]);
    }
  }

  /** `t` occurs in `s` starting at index `i`. */
  predicate OccursAt(s: string, t: string, i: int)
  {
    0 <= i && i + |t| <= |s| && s[i..i + |t|] == t
  }

  /** `s.includes(t)`: `t` is a prefix of `s` or occurs in its tail. */
  predicate Includes(s: string, t: string)
    decreases |s|
  {
    (|t| <= |s| && s[..|t|] == t) || (s != [] && Includes(s[1..], t))
  }

  /** `Includes` holds exactly when `t` occurs at some index of `s`. */
  lemma {:induction false} IncludesIffOccurs(s: string, t: string)
    ensures Includes(s, t) <==> exists i :: OccursAt(s, t, i)
    decreases |s|
  {
    if |t| <= |s| && s[..|t|] == t {
      assert OccursAt(s, t, 0);
    }
    if s == [] {
      if exists i :: OccursAt(s, t, i) {
        var i :| OccursAt(s, t, i);
        assert i == 0 && |t| == 0;
        assert s[..|t|] == t;
      }
    } else {
      var tail := s[1..];
      IncludesIffOccurs(tail, t);
      if Includes(tail, t) {
        var i :| OccursAt(tail, t, i);
        assert s[i + 1..i + 1 + |t|] == tail[i..i + |t|];
        assert OccursAt(s, t, i + 1);
      }
      if exists i :: OccursAt(s, t, i) {
        var i :| OccursAt(s, t, i);
        if i == 0 {
          assert s[..|t|] == t;
        } else {
          assert tail[i - 1..i - 1 + |t|] == s[i..i + |t|];
          assert OccursAt(tail, t, i - 1);
        }
      }
    }
  }

  /** The empty string is included in every string. */
  lemma IncludesEmpty(s: string)
    ensures Includes(s, "")
  {
    assert s[..0] == "";
  }
}
